=== FILE: README.md ===
# OAuth2 in-memory provider: a Dafny model

This project models the core of a small OAuth2 authorization server built on
Express and an OAuth library. The server's own logic is an in-memory
credential store, plus a few decisions in its HTTP handlers:

- **The store** (`model.js`) holds five tables: clients, users, authorization codes, access tokens and refresh tokens. The OAuth library calls back into it to find clients and users, and to save, look up and delete codes and tokens.
- **The handlers** (`app.js`) cover these decisions:
  - the session guard in front of `/authorize`;
  - the login page and the login form;
  - the `/me` profile resource;
  - the refresh-token sweep on `/logout`.

The store is an immutable `Store` datatype. Each callback is a pure function.
A mutating callback returns an `Effect`: the next store and the callback's
return value. A lookup returns only the value, so it cannot change the
store. JavaScript `null`/`undefined` is `Option.None`. A falsy optional
string (absent or `""`) is `!Truthy(..)`. Time is an integer number of
milliseconds passed in as `now`. The JSON Web Token signer is a function
parameter `sign: Claims -> string`.

Modules:
- `Wrappers`: `Option`.
- `Records`: clients, users, code and token records, signed claims.
- `Store`: the store and every exported callback of `model.js`.
- `StoreProperties`: lemmas relating callbacks (round trips, revocation, idempotence, no expiry checks, the store invariant `Valid`).
- `Escape`: the double-quote escaping of the login page's return target.
- `App`: the handler decisions of `app.js`.
- `AppProperties`: lemmas linking handlers and store, including the logout finding.

The store checks no expiry, does not enforce single use and does not rotate
tokens; the OAuth library decides all three. Section 4.1.2 of RFC 6749 requires
that an authorization code be used at most once; in this system the OAuth
library, not the store, would have to enforce that. The lookups return expired
records unchanged, and a code stays stored until it is revoked.

The stored access-token record has no scope field. The scope is only
inside the signed token.

## Model

| member | source | states |
|---|---|---|
| Store.Seed | model.js:3-27 | The initial store holds one client, found with or without its secret, and no other client is ever found. It holds one user, found by username and password, and no other user is ever returned. It holds no codes or tokens, and it satisfies the store invariant. |
| Store.GetClient | model.js:33-38 | A client is returned exactly when its id is known and either the secret is falsy or it equals the stored secret. The result is the stored client. |
| StoreProperties.GetClientUnknown | model.js:34-35 | An unknown client id yields null whatever secret is supplied. |
| StoreProperties.GetClientSecretCheck | model.js:36-37 | A known client is returned for an absent or empty secret and for its own secret. It is refused for any other non-empty secret. |
| Store.SaveAuthorizationCode | model.js:43-50 | The returned record carries the code's own fields, with `client` and `user` set to the arguments. Looking up the code afterwards gives that record. Every other code and every other table is unchanged. |
| StoreProperties.SaveThenGetCode | model.js:43-54 | Save then get returns the saved record. Its owners are the arguments even when the code object carried owners of its own. |
| Store.GetAuthorizationCode | model.js:52-54 | Returns the stored record exactly when the code is present, with no expiry check. |
| Store.RevokeAuthorizationCode | model.js:56-59 | Always returns true. Afterwards the code is absent, and every other code and every other table is unchanged. |
| StoreProperties.SaveRevokeGetCode | model.js:43-59 | Save, then revoke the returned record, then get: the result is null, and every other code is as it was before the save. |
| StoreProperties.RevokeCodeIdempotent | model.js:56-59 | Revoking twice leaves the same store as revoking once, and both calls return true. |
| StoreProperties.RevokeAbsentCode | model.js:56-59 | Revoking a code that is not stored changes nothing and still returns true. |
| Store.SaveToken | model.js:64-96 | The record is stored under the signature of (user id, client id, scope, iat, iat+3600). It expires at now + 3,600,000 ms and is returned as stored. A refresh entry with the same token, expiry, client and user is written only for a truthy refresh token. Nothing else changes. |
| StoreProperties.SaveTokenIgnoresCallerAccessToken | model.js:64-82 | The access token and access-token expiry the caller passes make no difference to the stored record or to the store. |
| Store.AccessClaims | model.js:65-73 | The signed claims carry the user id, client id and scope. `iat` is the issue time in whole seconds, rounded down, and `exp` is one hour after `iat`. |
| StoreProperties.SignedExpiryAgreesWithRecord | model.js:71-77 | The signed `exp` is one hour after `iat`. The stored millisecond expiry lies within the same second as `exp`. |
| StoreProperties.SaveTokenRefreshEntry | model.js:75-93 | A new refresh entry appears if and only if the refresh token is truthy. It carries the refresh token, expiry, client and user of the returned access-token record. |
| Store.GetAccessToken | model.js:98-100 | Returns the stored record exactly when the token is present, with no expiry check. |
| Store.GetRefreshToken | model.js:102-104 | Returns the stored record exactly when the token is present, with no expiry check. |
| Store.RevokeToken | model.js:106-109 | Always returns true. Afterwards the refresh token is absent, and every other refresh token and every other table is unchanged. |
| StoreProperties.RevokeTokenKeepsAccessToken | model.js:84-109 | After saving a token pair and revoking the refresh token, the access token of the same issuance is still returned and the refresh token is gone. A second revocation changes nothing. |
| StoreProperties.ExpiredTokensStillReturned | model.js:77-104 | At a time after both the access token and the refresh token have expired, the lookups still return the access-token record and the refresh-token record exactly as saved. |
| Store.FindUsername | model.js:115 | Returns the index of the first user with the username, searching from a start index, or nothing when no user from that index on has it. |
| Store.GetUser | model.js:114-118 | Returns a user only if both username and password match. It returns one exactly when the first user with that username has that password. |
| StoreProperties.GetUserFirstMatch | model.js:114-118 | The result is decided by the first user with the username: that user if the password matches, null otherwise. |
| StoreProperties.GetUserShadowedDuplicate | model.js:115-116 | Suppose the first user with the username has a different password. Then a later user with the same username and the right password is still not returned. |
| StoreProperties.SaveCodePreservesValid | model.js:44-48 | Saving a code keeps every key equal to the key field of its record. |
| StoreProperties.RevokeCodePreservesValid | model.js:57 | Revoking a code keeps the store invariant. |
| StoreProperties.SaveTokenPreservesValid | model.js:84-93 | Saving a token keeps the store invariant. Both new records are keyed by their own token and bound to the user, and only a non-empty refresh token becomes a key. |
| StoreProperties.RevokeTokenPreservesValid | model.js:107 | Revoking a refresh token keeps the store invariant. |
| App.Authorize | app.js:41-52 | The request is redirected to the login page if and only if there is no session user. The redirect remembers `/authorize?` plus the query. Otherwise the OAuth handler gets the session user. |
| App.ReturnToOrDefault | app.js:55 | A truthy return target is kept. A missing or empty one becomes `/authorize`. |
| Escape.EscapeQuotes | app.js:62 | The escaped text contains no double quote. It is five characters longer per quote replaced. |
| Escape.EscapeAppend | app.js:62 | Escaping the concatenation of two texts equals concatenating their escapes. |
| Escape.EscapeQuoteFree | app.js:62 | Text without double quotes is unchanged by escaping. |
| Escape.UnescapeEscape | app.js:62 | Decoding `&quot;` back to a quote recovers the original text, provided the text does not already contain `&quot;`. Targets with `&`, such as `/authorize?a=b&c=d`, round-trip. |
| Escape.EntityDoesNotRoundTrip | app.js:62 | A target that is the text `&quot;` comes back as a single double quote, so the round-trip condition above cannot be dropped. |
| Escape.ReplaceQuotes | app.js:62 | A left-to-right scan that replaces each quote by `&quot;` computes the escape. |
| App.LoginPageReturnTo | app.js:55-62 | The replacement string for the login page's placeholder contains no double quote. It is `/authorize` when no return target is given. |
| App.LoginPost | app.js:67-79 | The answer is 401 if and only if `getUser` rejects the credentials, and the session is then left as it was. Otherwise the session user is the user `getUser` returned, with that username and password, and the redirect goes to the return target or `/authorize`. |
| App.Me | app.js:89-104 | The answer is 401 if and only if the token record is missing or has no user. Otherwise it is exactly the user's id, email, first name and last name. |
| App.MemoryRefreshTokens | app.js:121 | `model.memory?.refreshTokens` is defined if and only if the export has a `memory` property, and then it is the store's refresh-token table. |
| App.SweepFilter | app.js:122-124 | The filtered table keeps every entry whose user id differs, unchanged, and no entry of that user remains. |
| App.SweepStore | app.js:121-125 | Sweeping over `undefined` leaves the store unchanged. Sweeping over a table keeps exactly the refresh tokens of other users, with their records unchanged. Codes, access tokens, clients and users are never touched. |
| App.Sweep | app.js:121-125 | Given a table and a user id, the loop keeps exactly the entries whose user id differs, and it leaves their records unchanged. |
| App.Logout | app.js:106-130 | As written, logout always ends with no session and a redirect to `/login`, and it never changes the store. |
| App.LogoutIntended | app.js:120-125 | Logout as the comment intends keeps a refresh token if and only if it belongs to another user, and leaves kept records, access tokens, codes, clients and users unchanged. |
| AppProperties.LoginThenAuthorize | app.js:41-79 | After a successful login, `/authorize` reaches the OAuth handler with the accepted user. After a failed login from a fresh session, it redirects to the login page. |
| AppProperties.MeIgnoresCredentials | app.js:96-103 | Two users that differ only in username and password get the same `/me` response. |
| AppProperties.IssueThenMe | app.js:89-104 | Handing the record stored for a freshly issued token to the `/me` handler returns that user's profile. The library's authenticate step, which checks expiry before the handler runs, is outside the model. |
| AppProperties.LoginPageRoundTrip | app.js:55-62 | The login page shows `/authorize` for a missing target. Reading `&quot;` back as a double quote recovers any target that does not already contain `&quot;`. |
| AppProperties.SweepStoreByLoop | app.js:121-125 | Running the sweep loop over the store's refresh-token table gives exactly the store the intended logout installs. |
| AppProperties.LogoutKeepsOwnRefreshToken | app.js:121-124 | A refresh token just issued to a user is still stored, bound to that user, after the user logs out. |
| AppProperties.LogoutIntendedRevokesOwnRefreshToken | app.js:120-125 | With the intended sweep, the user's refresh token is gone after logout. The access token from the same issuance is still returned. |
| AppProperties.LogoutPreservesValid | app.js:106-130 | Both logouts keep the store invariant. |

## Left out

- Express wiring is not modelled: middleware, `express-session`, cookies, `res.redirect`, `res.status` and `app.listen`. Only the decision each handler makes is modelled.
- Logout's 500 answer when `session.destroy` fails is not modelled, because it is session I/O.
- The OAuth library's grant logic is not modelled: code exchange, expiry checks, redirect-URI matching, token rotation and client-credentials handling. Its source is not part of this model.
- `jwt.sign` is the parameter `sign`. The model uses one `now` for the signer's clock and for `Date.now()` at model.js:77. The original reads the clock twice, and the two readings can differ by a few milliseconds.
- `dotenv` and `process.env` are replaced by the `Config` parameter of `Seed`. Unset environment variables are not modelled.
- The users table is a sequence in the order `Object.values` lists it. The rule that puts integer-like keys first is not modelled, and neither is keying the table by user id.
- Property names that plain JavaScript objects inherit, such as `constructor`, are not modelled. In the original, `getClient("constructor")` with no secret would find an inherited value; Dafny maps have no inherited entries.
- `saveToken` with a null user is excluded by `requires user.Some?`. The original throws at `user.id` before writing anything.
- `App.LogoutIntended`, `App.Sweep`, `App.SweepStore`, `App.SweepFilter` and `AppProperties.SweepStoreByLoop` require every refresh-token record they sweep to name a user, because the sweep body dereferences `.user.id`. Every store reachable through `saveToken` satisfies this (`StoreProperties.SaveTokenPreservesValid`).
- URL handling is not modelled: `URLSearchParams` and `encodeURIComponent` in `/authorize`, and `decodeURIComponent` in `/login`. `App.Authorize` keeps the serialised query as a parameter string. `App.LoginPost` gives the target before decoding. A malformed target that makes `decodeURIComponent` throw after `session.user` is set is not modelled.
- AppProperties.LoginPageRoundTrip: the round trip is stated for a decoder that reads back only `&quot;`, not for a full HTML attribute parser. app.js:62 escapes `"` but not `&`, so a target that contains another character reference such as `&amp;` or `&#34;` is not recovered by a browser. Targets built by `/authorize` contain no `;`, so only a semicolon-less legacy reference at the start of a later query name (for example `amp_x`) can be misread.
- App.LoginPageReturnTo: states the replacement string, not the resulting page. `html.replace` reads `$'` and `` $` `` in that string as patterns, so a target such as `/login?returnTo=%24%27` inserts the template text after the placeholder, quotes included.
- The file read of `views/login.html` and the `$`-pattern rules of the template `replace` are not modelled. Query values that are arrays are not modelled either.
- `async`/`await` is not modelled. No callback awaits anything inside, so each one is an atomic step.

## Findings

| source | as written | input that shows it | evidently intended | confidence | as-written member | corrected member |
|---|---|---|---|---|---|---|
| app.js:121 | The sweep iterates `model.memory?.refreshTokens`, but the default export of model.js has no `memory`, so the loop runs zero times. | A logged-in user who holds a refresh token requests `/logout`; the token is still stored afterwards. | Every refresh token of the logged-out user is deleted, as the comment at app.js:120 says. | high; not executed | AppProperties.LogoutKeepsOwnRefreshToken | AppProperties.LogoutIntendedRevokesOwnRefreshToken |

=== FILE: app.dfy ===
/** The decisions the HTTP handlers of app.js make around the store: the
    session guard on `/authorize`, the login page and login form, the `/me`
    resource and the refresh-token sweep on `/logout`. Sessions, cookies,
    redirects and status codes are reduced to the value each handler decides
    on. */
module App {
  import opened Wrappers
  import opened Records
  import opened Store
  import opened Escape

  /** `req.session.user`: the logged-in user, if any. */
  type Session = Option<User>

  const AuthorizePath: string := "/authorize"
  const LoginPath: string := "/login"

  // ---------------------------------------------------------------------------
  // /authorize
  // ---------------------------------------------------------------------------

  datatype AuthorizeOutcome =
    | RedirectToLogin(returnPath: string)
    | ToAuthorizeHandler(user: User)

  /** The guard before the OAuth authorize handler (app.js:41-52): without a
      session user, redirect to the login page remembering this request
      (`query` is the serialised query string); otherwise hand the session
      user to the authorize handler as the resource owner. */
  function Authorize(session: Session, query: string): (r: AuthorizeOutcome)
    ensures r.RedirectToLogin? <==> session.None?
    ensures r.RedirectToLogin? ==> r.returnPath == AuthorizePath + "?" + query
    ensures r.ToAuthorizeHandler? ==> session == Some(r.user)
  {
    match session
    case None => RedirectToLogin(AuthorizePath + "?" + query)
    case Some(u) => ToAuthorizeHandler(u)
  }

  // ---------------------------------------------------------------------------
  // /login
  // ---------------------------------------------------------------------------

  /** `returnTo || "/authorize"` (app.js:55, 77). */
  function ReturnToOrDefault(returnTo: Option<string>): (r: string)
    ensures Truthy(returnTo) ==> r == returnTo.value
    ensures !Truthy(returnTo) ==> r == AuthorizePath
  {
    if Truthy(returnTo) then returnTo.value else AuthorizePath
  }

  /** The replacement string handed to `html.replace` for the return-to
      placeholder of the login page (app.js:55, 62). */
  function LoginPageReturnTo(returnTo: Option<string>): (r: string)
    ensures forall i :: 0 <= i < |r| ==> r[i] != Quote
    ensures !Truthy(returnTo) ==> r == AuthorizePath
  {
    EscapeQuoteFree(AuthorizePath);
    EscapeQuotes(ReturnToOrDefault(returnTo))
  }

  datatype LoginOutcome =
    | InvalidCredentials
    | RedirectAfterLogin(target: string)

  datatype LoginResult = LoginResult(session: Session, outcome: LoginOutcome)

  /** The login form (app.js:67-79): on rejected credentials answer 401 and
      leave the session alone; otherwise log the user in and redirect to the
      return target (before URI decoding). */
  function LoginPost(s: Store, session: Session, username: string, password: string, returnTo: Option<string>)
    : (r: LoginResult)
    ensures r.outcome.InvalidCredentials? <==> GetUser(s, username, password).None?
    ensures r.outcome.InvalidCredentials? ==> r.session == session
    ensures r.outcome.RedirectAfterLogin? ==>
              && r.session == GetUser(s, username, password)
              && r.session.value.username == username && r.session.value.password == password
              && r.outcome.target == ReturnToOrDefault(returnTo)
  {
    match GetUser(s, username, password)
    case None => LoginResult(session, InvalidCredentials)
    case Some(u) => LoginResult(Some(u), RedirectAfterLogin(ReturnToOrDefault(returnTo)))
  }

  // ---------------------------------------------------------------------------
  // /me
  // ---------------------------------------------------------------------------

  datatype MeResponse =
    | Unauthorized
    | Profile(id: string, email: string, firstName: string, lastName: string)

  /** The protected resource (app.js:89-104): 401 without a token record or
      without a bound user; otherwise the user's public profile fields. */
  function Me(tokenData: Option<AccessTokenRecord>): (r: MeResponse)
    ensures r.Unauthorized? <==> tokenData.None? || tokenData.value.user.None?
    ensures r.Profile? ==>
              var u := tokenData.value.user.value;
              r == Profile(u.id, u.email, u.firstName, u.lastName)
  {
    match tokenData
    case None => Unauthorized
    case Some(t) =>
      match t.user
      case None => Unauthorized
      case Some(u) => Profile(u.id, u.email, u.firstName, u.lastName)
  }

  // ---------------------------------------------------------------------------
  // /logout
  // ---------------------------------------------------------------------------

  /** The property names of model.js's default export (model.js:29-119):
      the nine callbacks, and no `memory`. */
  const ModelExportProperties: set<string> := {
    "getClient", "saveAuthorizationCode", "getAuthorizationCode", "revokeAuthorizationCode",
    "saveToken", "getAccessToken", "getRefreshToken", "revokeToken", "getUser"
  }

  /** `model.memory?.refreshTokens`: the store's refresh-token table if the
      export has a `memory` property, `undefined` otherwise. */
  function MemoryRefreshTokens(exportProperties: set<string>, s: Store): (r: Option<map<string, RefreshTokenRecord>>)
    ensures r.Some? <==> "memory" in exportProperties
    ensures r.Some? ==> r.value == s.refreshTokens
  {
    if "memory" in exportProperties then Some(s.refreshTokens) else None
  }

  /** Every refresh-token record names a user, so the sweep's `.user.id`
      never dereferences null. */
  predicate AllBound(m: map<string, RefreshTokenRecord>)
  {
    forall k :: k in m ==> m[k].user.Some?
  }

  /** The entries of `m` that do not belong to `userId`. */
  function SweepFilter(m: map<string, RefreshTokenRecord>, userId: string): (r: map<string, RefreshTokenRecord>)
    requires AllBound(m)
    ensures AllBound(r)
    ensures forall k :: k in r ==> r[k].user.value.id != userId
    ensures forall k :: k in m && m[k].user.value.id != userId ==> k in r && r[k] == m[k]
    ensures r.Keys <= m.Keys
  {
    map k | k in m && m[k].user.value.id != userId :: m[k]
  }

  /** The sweep loop (app.js:121-125) run over a table: visit every key and
      delete the entry when its user is `userId`. */
  method Sweep(m: map<string, RefreshTokenRecord>, userId: string) returns (r: map<string, RefreshTokenRecord>)
    requires AllBound(m)
    ensures forall k :: k in r <==> k in m && m[k].user.value.id != userId
    ensures forall k :: k in r ==> r[k] == m[k]
  {
    r := m;
    var pending := m.Keys;
    while pending != {}
      invariant pending <= m.Keys
      invariant forall k :: k in pending ==> k in r
      invariant forall k :: k in r ==> k in m && r[k] == m[k]
      invariant forall k :: k in m && k !in pending ==> (k in r <==> m[k].user.value.id != userId)
      decreases pending
    {
      var k :| k in pending;
      if r[k].user.value.id == userId {
        r := r - {k};
      }
      pending := pending - {k};
    }
  }

  /** What the sweep leaves of the store when it iterates over `target`:
      nothing changes when `target` is `undefined`, since `for...in` over
      `undefined` runs zero times. */
  function SweepStore(s: Store, target: Option<map<string, RefreshTokenRecord>>, userId: string): (r: Store)
    requires target.Some? ==> AllBound(target.value)
    ensures target.None? ==> r == s
    ensures target.Some? ==>
              forall k :: k in r.refreshTokens <==> k in target.value && target.value[k].user.value.id != userId
    ensures target.Some? ==> forall k :: k in r.refreshTokens ==> r.refreshTokens[k] == target.value[k]
    ensures && r.clients == s.clients && r.users == s.users
            && r.authorizationCodes == s.authorizationCodes && r.accessTokens == s.accessTokens
  {
    match target
    case None => s
    case Some(m) => s.(refreshTokens := SweepFilter(m, userId))
  }

  datatype LogoutResult = LogoutResult(store: Store, session: Session, redirect: string)

  /** `/logout` as written (app.js:106-130): without a session user just
      redirect to the login page; otherwise destroy the session, run the
      sweep over `model.memory?.refreshTokens`, and redirect to the login
      page. The export has no `memory`, so the store is never changed. */
  function Logout(s: Store, session: Session): (r: LogoutResult)
    ensures r.redirect == LoginPath && r.session.None?
    ensures r.store == s
  {
    match session
    case None => LogoutResult(s, session, LoginPath)
    case Some(u) =>
      var target := MemoryRefreshTokens(ModelExportProperties, s);
      LogoutResult(SweepStore(s, target, u.id), None, LoginPath)
  }

  /** `/logout` as its comment intends: the sweep runs over the store's own
      refresh-token table, so every refresh token of the session user is
      revoked and nothing else changes. */
  function LogoutIntended(s: Store, session: Session): (r: LogoutResult)
    requires AllBound(s.refreshTokens)
    ensures r.redirect == LoginPath && r.session.None?
    ensures session.Some? ==>
              forall k :: GetRefreshToken(r.store, k).Some? <==>
                            GetRefreshToken(s, k).Some? && GetRefreshToken(s, k).value.user.value.id != session.value.id
    ensures forall k :: GetRefreshToken(r.store, k).Some? ==> GetRefreshToken(r.store, k) == GetRefreshToken(s, k)
    ensures session.None? ==> r.store == s
    ensures && r.store.clients == s.clients && r.store.users == s.users
            && r.store.authorizationCodes == s.authorizationCodes && r.store.accessTokens == s.accessTokens
  {
    match session
    case None => LogoutResult(s, session, LoginPath)
    case Some(u) => LogoutResult(SweepStore(s, Some(s.refreshTokens), u.id), None, LoginPath)
  }
}

=== FILE: app_properties.dfy ===
/** Properties that connect the handlers of app.js with the store: logging
    in and then authorizing, issuing a token and then reading `/me`, and what
    logging out does to refresh tokens as written and as intended. */
module AppProperties {
  import opened Wrappers
  import opened Records
  import opened Store
  import opened Escape
  import opened App

  /** After a successful login the next `/authorize` request reaches the
      OAuth handler with the user `getUser` accepted; after a failed one from
      a fresh session it is sent back to the login page. */
  lemma LoginThenAuthorize(s: Store, session: Session, username: string, password: string, returnTo: Option<string>, query: string)
    ensures var login := LoginPost(s, session, username, password, returnTo);
            && (login.outcome.RedirectAfterLogin? ==>
                  && Authorize(login.session, query).ToAuthorizeHandler?
                  && Authorize(login.session, query).user.username == username
                  && Authorize(login.session, query).user.password == password)
            && (login.outcome.InvalidCredentials? && session.None? ==> Authorize(login.session, query).RedirectToLogin?)
  {
  }

  /** `/me` never discloses the username or password: two users that differ
      only there produce the same response. */
  lemma MeIgnoresCredentials(t: AccessTokenRecord, u: User, username: string, password: string)
    ensures Me(Some(t.(user := Some(u))))
            == Me(Some(t.(user := Some(u.(username := username, password := password)))))
  {
  }

  /** Handing the record stored for a freshly issued token to the `/me`
      handler yields that user's profile. The OAuth library's authenticate
      step, which runs first and checks expiry, is not part of this model. */
  lemma IssueThenMe(s: Store, token: TokenInput, client: Client, u: User, now: int, sign: Claims -> string)
    ensures var saved := SaveToken(s, token, client, Some(u), now, sign);
            Me(GetAccessToken(saved.store, saved.value.accessToken)) == Profile(u.id, u.email, u.firstName, u.lastName)
  {
  }

  /** The login page shows the default target when no return target is
      given, and reading `&quot;` back as a double quote recovers any target
      that does not already contain `&quot;`. */
  lemma LoginPageRoundTrip(returnTo: Option<string>)
    requires Truthy(returnTo) ==> NoQuoteEntity(returnTo.value)
    ensures !Truthy(returnTo) ==> LoginPageReturnTo(returnTo) == AuthorizePath
    ensures Truthy(returnTo) ==> UnescapeQuotes(LoginPageReturnTo(returnTo)) == returnTo.value
  {
    if Truthy(returnTo) {
      UnescapeEscape(returnTo.value);
    }
  }

  /** The sweep loop computes exactly the filtered table the intended
      logout installs. */
  method SweepStoreByLoop(s: Store, userId: string) returns (r: Store)
    requires AllBound(s.refreshTokens)
    ensures r == SweepStore(s, Some(s.refreshTokens), userId)
  {
    var kept := Sweep(s.refreshTokens, userId);
    assert kept == SweepFilter(s.refreshTokens, userId);
    r := s.(refreshTokens := kept);
  }

  /** Logging out, as written, leaves a refresh token issued to the user in
      the store: the sweep iterates over `model.memory?.refreshTokens`, which
      is `undefined`. */
  lemma LogoutKeepsOwnRefreshToken(s: Store, token: TokenInput, client: Client, u: User, now: int, sign: Claims -> string)
    requires Valid(s)
    requires Truthy(token.refreshToken)
    ensures var saved := SaveToken(s, token, client, Some(u), now, sign);
            && Valid(saved.store)
            && GetRefreshToken(Logout(saved.store, Some(u)).store, token.refreshToken.value).Some?
            && GetRefreshToken(Logout(saved.store, Some(u)).store, token.refreshToken.value).value.user == Some(u)
  {
  }

  /** Logging out as intended revokes the user's refresh token, while the
      access token from the same issuance stays retrievable until it is
      dropped some other way. */
  lemma LogoutIntendedRevokesOwnRefreshToken(s: Store, token: TokenInput, client: Client, u: User, now: int, sign: Claims -> string)
    requires Valid(s)
    requires Truthy(token.refreshToken)
    ensures var saved := SaveToken(s, token, client, Some(u), now, sign);
            var out := LogoutIntended(saved.store, Some(u));
            && GetRefreshToken(out.store, token.refreshToken.value).None?
            && GetAccessToken(out.store, saved.value.accessToken) == Some(saved.value)
  {
  }

  /** Both logouts keep the store invariant. */
  lemma LogoutPreservesValid(s: Store, session: Session)
    requires Valid(s)
    ensures Valid(Logout(s, session).store)
    ensures Valid(LogoutIntended(s, session).store)
  {
  }
}

=== FILE: escape.dfy ===
/** The attribute escaping the login page applies to `returnTo`:
    `returnTo.replace(/"/g, '&quot;')`. Every double quote becomes the HTML
    entity `&quot;`; every other character is copied. */
module Escape {

  const Quote: char := '"'
  const QuoteEntity: string := "&quot;"

  /** Number of double quotes in `s`. */
  function QuoteCount(s: string): nat
  {
    if s == [] then 0 else (if s[0] == Quote then 1 else 0) + QuoteCount(s[1..])
  }

  /** The escaped text: contains no double quote, and grows by five
      characters per quote replaced. */
  function EscapeQuotes(s: string): (r: string)
    ensures forall i :: 0 <= i < |r| ==> r[i] != Quote
    ensures |r| == |s| + 5 * QuoteCount(s)
  {
    if s == [] then []
    else (if s[0] == Quote then QuoteEntity else [s[0]]) + EscapeQuotes(s[1..])
  }

  /** Reading back the one entity the escaping produces: `&quot;` becomes a
      double quote and every other character is copied. Other character
      references (`&amp;`, `&#34;`, ...) are left as they are, although an
      HTML attribute parser would decode them too. */
  function UnescapeQuotes(s: string): string
    decreases |s|
  {
    if s == [] then []
    else if |s| >= |QuoteEntity| && s[..|QuoteEntity|] == QuoteEntity then [Quote] + UnescapeQuotes(s[|QuoteEntity|..])
    else [s[0]] + UnescapeQuotes(s[1..])
  }

  /** Escaping distributes over concatenation, so escaping left to right
      piece by piece gives the same text. */
  lemma {:induction false} EscapeAppend(a: string, b: string)
    ensures EscapeQuotes(a + b) == EscapeQuotes(a) + EscapeQuotes(b)
  {
    if a == [] {
      assert a + b == b;
    } else {
      assert (a + b)[0] == a[0];
      assert (a + b)[1..] == a[1..] + b;
      EscapeAppend(a[1..], b);
    }
  }

  /** Text without double quotes is left exactly as it is. */
  lemma {:induction false} EscapeQuoteFree(s: string)
    requires forall i :: 0 <= i < |s| ==> s[i] != Quote
    ensures EscapeQuotes(s) == s
  {
    if s != [] {
      EscapeQuoteFree(s[1..]);
    }
  }

  /** `s` holds the text `&quot;` starting at index `i`. */
  predicate EntityAt(s: string, i: int)
  {
    0 <= i && i + |QuoteEntity| <= |s| && s[i..i + |QuoteEntity|] == QuoteEntity
  }

  /** `s` holds the text `&quot;` nowhere. */
  predicate NoQuoteEntity(s: string)
  {
    forall i :: 0 <= i <= |s| ==> !EntityAt(s, i)
  }

  /** If the escape of `t` starts with text `p` that has neither `&` nor a
      quote, then `t` itself starts with `p`: no entity can contribute to such
      a prefix, so it was copied. */
  lemma {:induction false} EscapePrefixCopied(t: string, p: string)
    requires forall i :: 0 <= i < |p| ==> p[i] != '&' && p[i] != Quote
    requires |p| <= |EscapeQuotes(t)| && EscapeQuotes(t)[..|p|] == p
    ensures |p| <= |t| && t[..|p|] == p
  {
    if p != [] {
      var e := EscapeQuotes(t);
      assert e[..|p|][0] == p[0];
      assert t != [];
      assert t[0] != Quote;
      var rest := EscapeQuotes(t[1..]);
      assert e == [t[0]] + rest;
      assert rest[..|p| - 1] == e[..|p|][1..];
      EscapePrefixCopied(t[1..], p[1..]);
      assert t[..|p|] == [t[0]] + t[1..][..|p| - 1];
    }
  }

  /** An `&` followed by the rest of the entity starts an entity. */
  lemma EntityAtHead(s: string)
    requires s != [] && s[0] == '&'
    requires |QuoteEntity| - 1 <= |s[1..]| && s[1..][..|QuoteEntity| - 1] == QuoteEntity[1..]
    ensures EntityAt(s, 0)
  {
  }

  /** Reading `&quot;` back recovers the original text, provided the text
      does not already contain `&quot;` (an ampersand is not escaped, so such
      an entity would be read back too). */
  lemma {:induction false} UnescapeEscape(s: string)
    requires NoQuoteEntity(s)
    ensures UnescapeQuotes(EscapeQuotes(s)) == s
  {
    if s != [] {
      var t := s[1..];
      forall i | 0 <= i <= |t|
        ensures !EntityAt(t, i)
      {
        if EntityAt(t, i) {
          assert s[i + 1..i + 1 + |QuoteEntity|] == t[i..i + |QuoteEntity|];
          assert EntityAt(s, i + 1);
        }
      }
      var rest := EscapeQuotes(t);
      UnescapeEscape(t);
      if s[0] == Quote {
        var e := QuoteEntity + rest;
        assert e[..|QuoteEntity|] == QuoteEntity;
        assert e[|QuoteEntity|..] == rest;
      } else {
        var e := [s[0]] + rest;
        if |e| >= |QuoteEntity| && e[..|QuoteEntity|] == QuoteEntity {
          var tail := QuoteEntity[1..];
          assert s[0] == e[..|QuoteEntity|][0] == '&';
          assert rest[..|tail|] == e[..|QuoteEntity|][1..];
          EscapePrefixCopied(t, tail);
          EntityAtHead(s);
          assert false;
        }
        assert e[1..] == rest;
      }
    }
  }

  /** The text `&quot;` itself does not survive the round trip: it comes
      back as a double quote. */
  lemma EntityDoesNotRoundTrip()
    ensures UnescapeQuotes(EscapeQuotes(QuoteEntity)) == [Quote]
  {
  }

  /** The global regular-expression replace as a left-to-right scan. */
  method ReplaceQuotes(s: string) returns (r: string)
    ensures r == EscapeQuotes(s)
  {
    r := [];
    var i := 0;
    while i < |s|
      invariant 0 <= i <= |s|
      invariant r == EscapeQuotes(s[..i])
    {
      EscapeAppend(s[..i], [s[i]]);
      assert s[..i + 1] == s[..i] + [s[i]];
      if s[i] == Quote {
        r := r + QuoteEntity;
      } else {
        r := r + [s[i]];
      }
      i := i + 1;
    }
    assert s[..i] == s;
  }
}

=== FILE: records.dfy ===
/** The entities the credential store keeps: registered clients, users,
    authorization codes and the two kinds of token record, in the shapes
    model.js builds them. Timestamps are integer milliseconds since the epoch
    (JavaScript `Date` values). */
module Records {
  import opened Wrappers

  /** A registered OAuth client (model.js:5-10). */
  datatype Client = Client(
    clientId: string,
    clientSecret: string,
    grants: seq<string>,
    redirectUris: seq<string>)

  /** A resource owner (model.js:14-21). */
  datatype User = User(
    id: string,
    username: string,
    password: string,
    email: string,
    firstName: string,
    lastName: string)

  /** Scopes as the OAuth library hands them over; `None` is `undefined`. */
  type Scope = Option<seq<string>>

  /** The code object the OAuth library passes to `saveAuthorizationCode`.
      It may already carry `client`/`user` properties of its own, which the
      store overrides. */
  datatype CodeInput = CodeInput(
    authorizationCode: string,
    expiresAt: int,
    redirectUri: string,
    scope: Scope,
    client: Option<Client>,
    user: Option<User>)

  /** A stored authorization code: the input's fields with `client` and
      `user` replaced by the arguments of `saveAuthorizationCode`. */
  datatype AuthCode = AuthCode(
    authorizationCode: string,
    expiresAt: int,
    redirectUri: string,
    scope: Scope,
    client: Client,
    user: User)

  /** The token object the OAuth library passes to `saveToken`. Its access
      token and access-token expiry are generated by the library but are not
      used by the store. */
  datatype TokenInput = TokenInput(
    accessToken: Option<string>,
    accessTokenExpiresAt: Option<int>,
    refreshToken: Option<string>,
    refreshTokenExpiresAt: Option<int>,
    scope: Scope)

  /** The record stored under a signed access token (model.js:75-82).
      `user` is `None` for a token issued without a user. */
  datatype AccessTokenRecord = AccessTokenRecord(
    accessToken: string,
    accessTokenExpiresAt: int,
    refreshToken: Option<string>,
    refreshTokenExpiresAt: Option<int>,
    client: Client,
    user: Option<User>)

  /** The record stored under a refresh token (model.js:87-92). */
  datatype RefreshTokenRecord = RefreshTokenRecord(
    refreshToken: string,
    refreshTokenExpiresAt: Option<int>,
    client: Client,
    user: Option<User>)

  /** The JSON Web Token claim set `jwt.sign` receives: the payload of
      model.js:65-69 plus the `iat` and `exp` claims (seconds) the signer adds
      for `expiresIn: "1h"`. */
  datatype Claims = Claims(
    userId: string,
    clientId: string,
    scope: Scope,
    iat: int,
    exp: int)

  /** JavaScript truthiness of an optional string: present and non-empty. */
  predicate Truthy(s: Option<string>)
  {
    s.Some? && s.value != ""
  }
}

=== FILE: store.dfy ===
/** The in-memory credential store of model.js: five string-keyed tables and
    the callbacks the OAuth library invokes on them. Every callback is a pure
    function from the current store to an `Effect` (the next store and the
    callback's return value); lookups return the store unchanged by not
    returning one at all. None of the callbacks looks at the clock except
    `SaveToken`, which receives `Date.now()` as `now`. */
module Store {
  import opened Wrappers
  import opened Records

  /** The `memory` object (model.js:3-27). `users` lists the user records in
      the order `Object.values(memory.users)` enumerates them. */
  datatype Store = Store(
    clients: map<string, Client>,
    users: seq<User>,
    authorizationCodes: map<string, AuthCode>,
    accessTokens: map<string, AccessTokenRecord>,
    refreshTokens: map<string, RefreshTokenRecord>)

  /** The store after a mutating callback, and the callback's return value. */
  datatype Effect<+T> = Effect(store: Store, value: T)

  /** `expiresIn: "1h"` given to the signer, in seconds. */
  const JwtLifetimeSeconds: int := 3600

  /** The fixed lifetime of the stored access-token record, in milliseconds
      (`3600 * 1000`, model.js:77). */
  const AccessTokenLifetimeMs: int := 3600 * 1000

  /** The grants the seeded client is registered for (model.js:8). */
  const SeedGrants: seq<string> := ["authorization_code", "refresh_token", "password", "client_credentials"]

  /** The environment values the store is seeded from. */
  datatype Config = Config(
    clientId: string,
    clientSecret: string,
    redirectUri: string,
    userId: string,
    username: string,
    password: string,
    email: string,
    firstName: string,
    lastName: string)

  function SeedClient(cfg: Config): Client
  {
    Client(cfg.clientId, cfg.clientSecret, SeedGrants, [cfg.redirectUri])
  }

  function SeedUser(cfg: Config): User
  {
    User(cfg.userId, cfg.username, cfg.password, cfg.email, cfg.firstName, cfg.lastName)
  }

  /** Keys agree with the records they index, and every token record is bound
      to a user. `saveToken` can only ever write such records. */
  predicate Valid(s: Store)
  {
    && (forall k :: k in s.clients ==> s.clients[k].clientId == k)
    && (forall k :: k in s.authorizationCodes ==> s.authorizationCodes[k].authorizationCode == k)
    && (forall k :: k in s.accessTokens ==> s.accessTokens[k].accessToken == k && s.accessTokens[k].user.Some?)
    && (forall k :: k in s.refreshTokens ==> k != "" && s.refreshTokens[k].refreshToken == k && s.refreshTokens[k].user.Some?)
  }

  /** The store as the module initialises it: one client, one user, and no
      codes or tokens. */
  function Seed(cfg: Config): (s: Store)
    ensures Valid(s)
    ensures GetClient(s, cfg.clientId, Some(cfg.clientSecret)) == Some(SeedClient(cfg))
    ensures GetClient(s, cfg.clientId, None) == Some(SeedClient(cfg))
    ensures GetUser(s, cfg.username, cfg.password) == Some(SeedUser(cfg))
    ensures forall id, secret :: GetClient(s, id, secret).Some? ==> id == cfg.clientId
    ensures forall u, p :: GetUser(s, u, p).Some? ==> GetUser(s, u, p).value == SeedUser(cfg)
    ensures forall k :: GetAuthorizationCode(s, k).None? && GetAccessToken(s, k).None? && GetRefreshToken(s, k).None?
  {
    Store(map[cfg.clientId := SeedClient(cfg)], [SeedUser(cfg)], map[], map[], map[])
  }

  // ---------------------------------------------------------------------------
  // Clients
  // ---------------------------------------------------------------------------

  /** `getClient` (model.js:33-38): the secret is compared only when it is
      truthy, so an absent or empty secret authenticates any known client. */
  function GetClient(s: Store, clientId: string, clientSecret: Option<string>): (r: Option<Client>)
    ensures r.Some? <==> clientId in s.clients && (!Truthy(clientSecret) || s.clients[clientId].clientSecret == clientSecret.value)
    ensures r.Some? ==> r.value == s.clients[clientId]
  {
    if clientId !in s.clients then None
    else if Truthy(clientSecret) && s.clients[clientId].clientSecret != clientSecret.value then None
    else Some(s.clients[clientId])
  }

  // ---------------------------------------------------------------------------
  // Authorization codes
  // ---------------------------------------------------------------------------

  /** The object literal `{ ...code, client, user }`: the later properties
      win over those spread from `code`. */
  function WithOwners(code: CodeInput, client: Client, user: User): AuthCode
  {
    AuthCode(code.authorizationCode, code.expiresAt, code.redirectUri, code.scope, client, user)
  }

  /** `saveAuthorizationCode` (model.js:43-50). */
  function SaveAuthorizationCode(s: Store, code: CodeInput, client: Client, user: User): (r: Effect<AuthCode>)
    ensures r.value.client == client && r.value.user == user
    ensures && r.value.authorizationCode == code.authorizationCode
            && r.value.expiresAt == code.expiresAt
            && r.value.redirectUri == code.redirectUri
            && r.value.scope == code.scope
    ensures GetAuthorizationCode(r.store, code.authorizationCode) == Some(r.value)
    ensures forall k :: k != code.authorizationCode ==> GetAuthorizationCode(r.store, k) == GetAuthorizationCode(s, k)
    ensures && r.store.clients == s.clients && r.store.users == s.users
            && r.store.accessTokens == s.accessTokens && r.store.refreshTokens == s.refreshTokens
  {
    var record := WithOwners(code, client, user);
    Effect(s.(authorizationCodes := s.authorizationCodes[code.authorizationCode := record]), record)
  }

  /** `getAuthorizationCode` (model.js:52-54): a plain lookup, with no
      expiry check. */
  function GetAuthorizationCode(s: Store, authCode: string): (r: Option<AuthCode>)
    ensures r.Some? <==> authCode in s.authorizationCodes
    ensures r.Some? ==> r.value == s.authorizationCodes[authCode]
  {
    if authCode in s.authorizationCodes then Some(s.authorizationCodes[authCode]) else None
  }

  /** `revokeAuthorizationCode` (model.js:56-59): deletes the entry under the
      record's code and reports success whether or not it was present. */
  function RevokeAuthorizationCode(s: Store, code: AuthCode): (r: Effect<bool>)
    ensures r.value
    ensures GetAuthorizationCode(r.store, code.authorizationCode).None?
    ensures forall k :: k != code.authorizationCode ==> GetAuthorizationCode(r.store, k) == GetAuthorizationCode(s, k)
    ensures && r.store.clients == s.clients && r.store.users == s.users
            && r.store.accessTokens == s.accessTokens && r.store.refreshTokens == s.refreshTokens
  {
    Effect(s.(authorizationCodes := s.authorizationCodes - {code.authorizationCode}), true)
  }

  // ---------------------------------------------------------------------------
  // Tokens
  // ---------------------------------------------------------------------------

  /** The claim set signed for an access token issued at `now` (ms): the
      signer's `iat` is `Math.floor(now / 1000)`. */
  function AccessClaims(token: TokenInput, client: Client, user: User, now: int): (c: Claims)
    ensures c.userId == user.id && c.clientId == client.clientId && c.scope == token.scope
    ensures c.iat * 1000 <= now < c.iat * 1000 + 1000
    ensures c.exp == c.iat + JwtLifetimeSeconds
  {
    var iat := now / 1000;
    Claims(user.id, client.clientId, token.scope, iat, iat + JwtLifetimeSeconds)
  }

  /** `saveToken` (model.js:64-96). The access token is the signature of the
      claims; the library's own access token and expiry in `token` are
      ignored. A refresh-token entry is written only for a truthy refresh
      token. A null `user` makes the original throw at `user.id`, so it is
      excluded here. */
  function SaveToken(s: Store, token: TokenInput, client: Client, user: Option<User>, now: int, sign: Claims -> string)
    : (r: Effect<AccessTokenRecord>)
    requires user.Some?
    ensures r.value.accessToken == sign(AccessClaims(token, client, user.value, now))
    ensures r.value.accessTokenExpiresAt == now + AccessTokenLifetimeMs
    ensures && r.value.refreshToken == token.refreshToken
            && r.value.refreshTokenExpiresAt == token.refreshTokenExpiresAt
            && r.value.client == client && r.value.user == user
    ensures GetAccessToken(r.store, r.value.accessToken) == Some(r.value)
    ensures forall k :: k != r.value.accessToken ==> GetAccessToken(r.store, k) == GetAccessToken(s, k)
    ensures Truthy(token.refreshToken) ==>
              GetRefreshToken(r.store, token.refreshToken.value)
              == Some(RefreshTokenRecord(token.refreshToken.value, token.refreshTokenExpiresAt, client, user))
    ensures forall k :: (!Truthy(token.refreshToken) || k != token.refreshToken.value) ==>
              GetRefreshToken(r.store, k) == GetRefreshToken(s, k)
    ensures r.store.clients == s.clients && r.store.users == s.users && r.store.authorizationCodes == s.authorizationCodes
  {
    var accessToken := sign(AccessClaims(token, client, user.value, now));
    var tokenData := AccessTokenRecord(
      accessToken, now + AccessTokenLifetimeMs, token.refreshToken, token.refreshTokenExpiresAt, client, user);
    var withAccess := s.(accessTokens := s.accessTokens[accessToken := tokenData]);
    var next :=
      if Truthy(token.refreshToken) then
        var rt := token.refreshToken.value;
        withAccess.(refreshTokens := s.refreshTokens[rt := RefreshTokenRecord(rt, token.refreshTokenExpiresAt, client, user)])
      else withAccess;
    Effect(next, tokenData)
  }

  /** `getAccessToken` (model.js:98-100): a plain lookup, with no expiry
      check. */
  function GetAccessToken(s: Store, accessToken: string): (r: Option<AccessTokenRecord>)
    ensures r.Some? <==> accessToken in s.accessTokens
    ensures r.Some? ==> r.value == s.accessTokens[accessToken]
  {
    if accessToken in s.accessTokens then Some(s.accessTokens[accessToken]) else None
  }

  /** `getRefreshToken` (model.js:102-104): a plain lookup, with no expiry
      check. */
  function GetRefreshToken(s: Store, refreshToken: string): (r: Option<RefreshTokenRecord>)
    ensures r.Some? <==> refreshToken in s.refreshTokens
    ensures r.Some? ==> r.value == s.refreshTokens[refreshToken]
  {
    if refreshToken in s.refreshTokens then Some(s.refreshTokens[refreshToken]) else None
  }

  /** `revokeToken` (model.js:106-109): deletes the refresh-token entry only,
      and reports success whether or not it was present. */
  function RevokeToken(s: Store, token: RefreshTokenRecord): (r: Effect<bool>)
    ensures r.value
    ensures GetRefreshToken(r.store, token.refreshToken).None?
    ensures forall k :: k != token.refreshToken ==> GetRefreshToken(r.store, k) == GetRefreshToken(s, k)
    ensures && r.store.clients == s.clients && r.store.users == s.users
            && r.store.authorizationCodes == s.authorizationCodes && r.store.accessTokens == s.accessTokens
  {
    Effect(s.(refreshTokens := s.refreshTokens - {token.refreshToken}), true)
  }

  // ---------------------------------------------------------------------------
  // Users
  // ---------------------------------------------------------------------------

  /** `Array.prototype.find` over `users[from..]` by username: the index of
      the first user with that username, if any. */
  function FindUsername(users: seq<User>, username: string, from: nat): (r: Option<nat>)
    requires from <= |users|
    ensures r.Some? ==> from <= r.value < |users| && users[r.value].username == username
    ensures r.Some? ==> forall j :: from <= j < r.value ==> users[j].username != username
    ensures r.None? ==> forall j :: from <= j < |users| ==> users[j].username != username
    decreases |users| - from
  {
    if from == |users| then None
    else if users[from].username == username then Some(from)
    else FindUsername(users, username, from + 1)
  }

  /** `getUser` (model.js:114-118): only the first user with the given
      username is considered, and it is returned only if its password
      matches. */
  function GetUser(s: Store, username: string, password: string): (r: Option<User>)
    ensures r.Some? ==> r.value in s.users && r.value.username == username && r.value.password == password
    ensures r.Some? <==>
              exists i :: && 0 <= i < |s.users|
                          && s.users[i].username == username && s.users[i].password == password
                          && forall j :: 0 <= j < i ==> s.users[j].username != username
  {
    match FindUsername(s.users, username, 0)
    case None => None
    case Some(i) => if s.users[i].password != password then None else Some(s.users[i])
  }
}

=== FILE: store_properties.dfy ===
/** Properties that relate several store callbacks: save/lookup round trips,
    revocation, idempotence, the absence of expiry checks, and the store
    invariant every mutation keeps. */
module StoreProperties {
  import opened Wrappers
  import opened Records
  import opened Store

  // ---------------------------------------------------------------------------
  // Clients
  // ---------------------------------------------------------------------------

  /** An unknown client id is never found, whatever secret is supplied. */
  lemma GetClientUnknown(s: Store, clientId: string, secret: Option<string>)
    requires clientId !in s.clients
    ensures GetClient(s, clientId, secret).None?
  {
  }

  /** A known client is found with an absent or empty secret (the public
      client path), and with its own secret; any other non-empty secret is
      refused. */
  lemma GetClientSecretCheck(s: Store, clientId: string, secret: Option<string>)
    requires clientId in s.clients
    ensures !Truthy(secret) ==> GetClient(s, clientId, secret) == Some(s.clients[clientId])
    ensures GetClient(s, clientId, Some(s.clients[clientId].clientSecret)) == Some(s.clients[clientId])
    ensures Truthy(secret) && secret.value != s.clients[clientId].clientSecret ==> GetClient(s, clientId, secret).None?
  {
  }

  // ---------------------------------------------------------------------------
  // Authorization codes
  // ---------------------------------------------------------------------------

  /** Saving a code and looking it up yields the saved record, whose owners
      are the arguments even when the code object carried owners of its own. */
  lemma SaveThenGetCode(s: Store, code: CodeInput, client: Client, user: User)
    ensures var r := SaveAuthorizationCode(s, code, client, user);
            && GetAuthorizationCode(r.store, code.authorizationCode) == Some(r.value)
            && r.value.client == client && r.value.user == user
  {
  }

  /** Save, then revoke the returned record, then look up: nothing is found,
      and every other code is as it was before the save. */
  lemma SaveRevokeGetCode(s: Store, code: CodeInput, client: Client, user: User)
    ensures var saved := SaveAuthorizationCode(s, code, client, user);
            var revoked := RevokeAuthorizationCode(saved.store, saved.value);
            && revoked.value
            && GetAuthorizationCode(revoked.store, code.authorizationCode).None?
            && forall k :: k != code.authorizationCode ==>
                 GetAuthorizationCode(revoked.store, k) == GetAuthorizationCode(s, k)
  {
  }

  /** Revoking a code twice leaves the same store as revoking it once, and
      both calls report success. */
  lemma RevokeCodeIdempotent(s: Store, code: AuthCode)
    ensures var once := RevokeAuthorizationCode(s, code);
            var twice := RevokeAuthorizationCode(once.store, code);
            twice.store == once.store && once.value && twice.value
  {
  }

  /** Revoking a code that is not stored changes nothing and still reports
      success. */
  lemma RevokeAbsentCode(s: Store, code: AuthCode)
    requires GetAuthorizationCode(s, code.authorizationCode).None?
    ensures RevokeAuthorizationCode(s, code) == Effect(s, true)
  {
  }

  // ---------------------------------------------------------------------------
  // Tokens
  // ---------------------------------------------------------------------------

  /** The access-token expiry the caller passes, and the access token the
      library generated, make no difference to `saveToken`. */
  lemma SaveTokenIgnoresCallerAccessToken(
    s: Store, token: TokenInput, client: Client, user: Option<User>, now: int, sign: Claims -> string,
    otherToken: Option<string>, otherExpiry: Option<int>)
    requires user.Some?
    ensures SaveToken(s, token, client, user, now, sign)
            == SaveToken(s, token.(accessToken := otherToken, accessTokenExpiresAt := otherExpiry), client, user, now, sign)
  {
  }

  /** The stored expiry (ms) and the signed `exp` claim (s) describe the same
      instant to within the second the signer rounds away. */
  lemma SignedExpiryAgreesWithRecord(s: Store, token: TokenInput, client: Client, user: Option<User>, now: int, sign: Claims -> string)
    requires user.Some?
    ensures var claims := AccessClaims(token, client, user.value, now);
            var expiresAt := SaveToken(s, token, client, user, now, sign).value.accessTokenExpiresAt;
            && claims.exp - claims.iat == JwtLifetimeSeconds
            && claims.exp * 1000 <= expiresAt < claims.exp * 1000 + 1000
  {
  }

  /** A refresh-token entry exists after `saveToken` exactly when the refresh
      token is truthy, and it carries the same refresh token, expiry, client
      and user as the returned access-token record. */
  lemma SaveTokenRefreshEntry(s: Store, token: TokenInput, client: Client, user: Option<User>, now: int, sign: Claims -> string, key: string)
    requires user.Some?
    requires key !in s.refreshTokens
    ensures var r := SaveToken(s, token, client, user, now, sign);
            && (GetRefreshToken(r.store, key).Some? <==> Truthy(token.refreshToken) && key == token.refreshToken.value)
            && (GetRefreshToken(r.store, key).Some? ==>
                  var rt := GetRefreshToken(r.store, key).value;
                  && Some(rt.refreshToken) == r.value.refreshToken
                  && rt.refreshTokenExpiresAt == r.value.refreshTokenExpiresAt
                  && rt.client == r.value.client && rt.user == r.value.user)
  {
  }

  /** Revoking the refresh token of an issuance leaves the access token of
      the same issuance retrievable, removes the refresh token, and a second
      revocation changes nothing further. */
  lemma RevokeTokenKeepsAccessToken(s: Store, token: TokenInput, client: Client, user: Option<User>, now: int, sign: Claims -> string)
    requires user.Some?
    requires Truthy(token.refreshToken)
    ensures var saved := SaveToken(s, token, client, user, now, sign);
            var rt := GetRefreshToken(saved.store, token.refreshToken.value).value;
            var once := RevokeToken(saved.store, rt);
            var twice := RevokeToken(once.store, rt);
            && GetAccessToken(once.store, saved.value.accessToken) == Some(saved.value)
            && GetRefreshToken(once.store, token.refreshToken.value).None?
            && twice.store == once.store && twice.value
  {
  }

  /** Lookups take no clock: a token saved at `now` is still returned, as
      saved, at any later time, including after its stored expiry. */
  lemma ExpiredTokensStillReturned(s: Store, token: TokenInput, client: Client, user: Option<User>, now: int, sign: Claims -> string, later: int)
    requires user.Some?
    requires Truthy(token.refreshToken)
    requires later > now + AccessTokenLifetimeMs
    requires token.refreshTokenExpiresAt.Some? && token.refreshTokenExpiresAt.value < later
    ensures var saved := SaveToken(s, token, client, user, now, sign);
            var rt := token.refreshToken.value;
            && saved.value.accessTokenExpiresAt < later
            && GetAccessToken(saved.store, saved.value.accessToken) == Some(saved.value)
            && GetRefreshToken(saved.store, rt) == Some(RefreshTokenRecord(rt, token.refreshTokenExpiresAt, client, user))
  {
  }

  // ---------------------------------------------------------------------------
  // Users
  // ---------------------------------------------------------------------------

  /** `getUser` is decided by the first user with the given username alone:
      it returns that user exactly when its password matches. */
  lemma GetUserFirstMatch(s: Store, username: string, password: string, i: int)
    requires 0 <= i < |s.users| && s.users[i].username == username
    requires forall j :: 0 <= j < i ==> s.users[j].username != username
    ensures GetUser(s, username, password) == if s.users[i].password == password then Some(s.users[i]) else None
  {
  }

  /** A later user that shares the first match's username is never returned
      when the first match's password differs, even if its own password is
      the one supplied. */
  lemma GetUserShadowedDuplicate(s: Store, username: string, password: string, i: int, j: int)
    requires 0 <= i < j < |s.users|
    requires forall k :: 0 <= k < i ==> s.users[k].username != username
    requires s.users[i].username == username && s.users[j].username == username
    requires s.users[i].password != password && s.users[j].password == password
    ensures GetUser(s, username, password).None?
  {
  }

  // ---------------------------------------------------------------------------
  // The store invariant
  // ---------------------------------------------------------------------------

  /** Saving a code keeps keys consistent with their records. */
  lemma SaveCodePreservesValid(s: Store, code: CodeInput, client: Client, user: User)
    requires Valid(s)
    ensures Valid(SaveAuthorizationCode(s, code, client, user).store)
  {
  }

  /** Revoking a code keeps keys consistent with their records. */
  lemma RevokeCodePreservesValid(s: Store, code: AuthCode)
    requires Valid(s)
    ensures Valid(RevokeAuthorizationCode(s, code).store)
  {
  }

  /** Saving a token keeps keys consistent with their records and binds both
      new records to the user: only a truthy refresh token becomes a key. */
  lemma SaveTokenPreservesValid(s: Store, token: TokenInput, client: Client, user: User, now: int, sign: Claims -> string)
    requires Valid(s)
    ensures Valid(SaveToken(s, token, client, Some(user), now, sign).store)
  {
  }

  /** Revoking a refresh token keeps keys consistent with their records. */
  lemma RevokeTokenPreservesValid(s: Store, token: RefreshTokenRecord)
    requires Valid(s)
    ensures Valid(RevokeToken(s, token).store)
  {
  }
}

=== FILE: wrappers.dfy ===
/** The JavaScript "value or null/undefined" shape, used wherever the
    original code returns `null` or reads an optional field. */
module Wrappers {

  datatype Option<+T> = None | Some(value: T)
}
